=== FILE: README.md ===
# Portfolio page script — a Dafny model

The page script of a personal portfolio site does four things. It reveals
page sections once as they scroll into view. It cycles each project's
screenshots on a timer. It opens and closes modal dialogs, locking page
scrolling while one is shown. It turns the contact form into a `mailto:` link.
This project models each of these as pure functions over immutable
datatypes and proves what they do.

- `dom.dfy` (`Dom`): element identities and the class names `hidden`, `show`, `modal`.
- `reveal.dfy` (`Reveal`): the reveal-on-scroll coordinator. The page state is
  one class set per element plus the set of observed elements. `Setup` is the
  page-load loop. `Batch` is the observer callback over one batch of
  `(target, isIntersecting)` entries.
- `slideshow.dfy` (`Slideshow`): the image-count table, the tick
  `(index % max) + 1` with JavaScript's truncating `%`, and the index after
  `k` ticks. It also models the table lookup as the script writes it, as a
  JavaScript property read that also finds inherited members.
- `modal.dfy` (`Modal`): `openModal`, `closeModal`, the window click handler
  and the Escape handler, as written. It adds a variant that derives the
  scroll lock from the modals still shown.
- `uri.dfy` (`Uri`) and `mailto.dfy` (`Mailto`): the link the submit handler
  builds, and how a mail client reads such a link back. Navigating to the
  link first runs the URL Standard's basic URL parser. It strips C0 controls
  and spaces from both ends of the link and deletes every tab, line feed and
  carriage return. The mail client then ignores the fragment from the first
  `#` on, which is not part of the header fields (section 3.5 of RFC 3986).
  It splits the addresses at `?` and the header fields at `&` (section 2 of
  RFC 6068), then percent-decodes the values (section 2.1 of RFC 3986).
  `encode` is a function parameter that stands for `encodeURIComponent`.

Only the subject goes through `encodeURIComponent`. Name, email and message
go into the body as typed (see Findings).

## Model

| member | source | states |
|---|---|---|
| `Reveal.Setup` | script.js:56-59 | every selected element gains `hidden` (its other classes kept) and joins the observed set; unselected elements keep their classes and observed status |
| `Reveal.SetupEstablishes` | script.js:54-59 | from a page with nothing shown or observed, setup leaves every selected element hidden and observed, the observed set equal to the selection, and no observed element shown |
| `Reveal.Batch` | script.js:44-51 | an element gains `show` and leaves the observed set exactly when some entry of the batch reports it intersecting; every other element keeps its classes and observed status |
| `Reveal.NonIntersectingBatchIsNoOp` | script.js:45-50 | a batch whose entries all have `isIntersecting == false` leaves the page unchanged |
| `Reveal.BatchRevealsAllIntersecting` | script.js:45-50 | the shown set after a batch is the old shown set plus every intersecting target, not only the first; the newly shown elements are exactly the intersecting targets not shown before |
| `Reveal.BatchMonotone` | script.js:46-48 | a batch removes no class (so `show` is never removed) and never adds to the observed set |
| `Reveal.BatchIdempotent` | script.js:46-48 | delivering the same batch again leaves the page unchanged |
| `Reveal.BatchOrderIndependent` | script.js:45-50 | two batches with the same entries in any order produce the same page |
| `Reveal.BatchPreservesConsistent` | script.js:46-48 | if no observed element is shown before a batch, none is after it: an element is never revealed while still observed |
| `Reveal.RunMonotone` | script.js:44-51 | over any sequence of batches, classes only grow, the observed set only shrinks, and no observed element is shown |
| `Slideshow.JsRem` | script.js:86 | JavaScript's `%`: for a non-negative dividend the remainder is non-negative and below the divisor's magnitude, and agrees with the mathematical remainder for a positive divisor |
| `Slideshow.ImageCount` | script.js:67-72 | the image count is at least 1; it is the table's entry for a project in the table and 1 for any other project (corrected lookup, see Findings) |
| `Slideshow.ProjectIndices` | script.js:67-79 | `papais`, `puskesmas`, `guacamole`, `dashboard` cycle through 8, 8, 2, 6 images, and the script's own lookup gives those counts; any other project stays on image 1 under the corrected lookup, and the script's lookup also gives it 1 unless the name is an inherited member (see Findings) |
| `Slideshow.Tick` | script.js:86 | from a non-negative index the next index lies in `[1, max]`; it is the next image below `max` and wraps to 1 at `max` |
| `Slideshow.IndexAfterClosedForm` | script.js:79-88 | starting at 1, after `k` ticks the index is `(k % max) + 1` |
| `Slideshow.IndexAfterBounds` | script.js:79-88 | the index always lies in `[1, max]`, and with `max == 1` it is 1 forever |
| `Slideshow.IndexAfterPeriodic` | script.js:86 | the index sequence repeats with period `max` |
| `Slideshow.Run` | script.js:76-89 | the interval callback, looping over `ticks` ticks on a mutable index, ends on `(ticks % ImageCount(project)) + 1`, within `[1, ImageCount(project)]` (corrected lookup, see Findings) |
| `Slideshow.RunFrom` | script.js:79-88 | for any image count `max >= 1`, the tick loop from index 1 ends after `ticks` ticks on `(ticks % max) + 1`, within `[1, max]` |
| `Slideshow.AsWrittenAgreesOffPrototype` | script.js:67-78 | for every project name that is not an inherited member of a plain object, the script's lookup with its fallback to 1 is the number `ImageCount(name)` |
| `Slideshow.ConstructorBreaksSlideshow` | script.js:78-86 | for `data-project="constructor"` the script's image count is a function object; the index becomes NaN on the first tick and stays NaN |
| `Modal.OpenModal` | script.js:2-8 | a missing id leaves the page unchanged; otherwise that element shows as `flex`, scrolling is locked, and no other element's display changes |
| `Modal.CloseModal` | script.js:10-16 | a missing id leaves the page unchanged; otherwise that element gets `none` and scrolling is unlocked whatever else is shown; no other element's display changes |
| `Modal.OnClick` | script.js:19-24 | a click on an element without class `modal` changes nothing; a click on one hides only that element and unlocks scrolling; on a valid page the findable ids stay the same |
| `Modal.OnKeyDown` | script.js:27-35 | Escape sets every `modal`-class element to `none`, keeps every other element's display and unlocks scrolling; any other key changes nothing; on a valid page the findable ids stay the same |
| `Modal.OpenThenClose` | script.js:2-16 | opening then closing an existing modal leaves it hidden and the page unlocked; for a missing id the pair changes nothing |
| `Modal.CloseIdempotent` | script.js:10-35 | closing the same modal twice, or pressing the same key twice, has the effect of doing it once |
| `Modal.EscapeClosesAll` | script.js:27-35 | after Escape no `modal`-class element is shown; if every shown element is a modal, the lock then matches what is open |
| `Modal.CloseUnlocksWhileAnotherIsOpen` | script.js:2-16 | open `a`, open `b`, close `a`: `b` is still shown but scrolling is unlocked, although it was correctly locked before the close |
| `Modal.Relock` | script.js:14 | the corrected lock: overflow is `hidden` exactly when some element is shown |
| `Modal.CloseModalLocked` | script.js:10-16 | corrected close: same displays as `closeModal`, it keeps "locked exactly while something is shown", and it keeps a valid page's findable ids |
| `Modal.OnClickLocked` | script.js:19-24 | corrected click handler: same displays as the original, it keeps the lock invariant, and it keeps a valid page's findable ids |
| `Modal.OnKeyDownLocked` | script.js:27-35 | corrected Escape handler: same displays as the original, it keeps the lock invariant, and it keeps a valid page's findable ids |
| `Modal.OpenKeepsLock` | script.js:2-8 | `openModal` keeps the lock invariant as written |
| `Modal.LockedCloseAgreesWhenLastClosed` | script.js:10-16 | when the close leaves nothing shown, the corrected close and `closeModal` produce the same page |
| `Modal.RunLockedKeepsLock` | script.js:2-35 | with the corrected handlers, any sequence of opens, closes, clicks and key presses keeps scrolling locked exactly while some modal is shown; on a valid page (every `modal`-class element findable) it stays valid and the findable ids never change |
| `Mailto.BodyDecodes` | script.js:107 | when the fields hold no `%`, the body percent-decodes to `Name: <name>\r\nEmail: <email>\r\n\r\nMessage:\r\n<message>` |
| `Mailto.ParseComposed` | script.js:110-113 | a link `mailto:silmiyushini1919@gmail.com?subject=<s>&body=<b>`, with no `&`, `#`, tab or line break in `<s>`, reaches the mail client as that recipient, subject `<s>`, and body `<b>` as the URL parser keeps it (trailing blanks stripped, tabs and line breaks deleted), up to its first `#` and within that up to its first `&` |
| `Mailto.ReadComposed` | script.js:110-113 | a mail client opening such a link gets the fixed recipient, the decoded subject, and the decoded body as the URL parser keeps it, cut at its first `#` and then its first `&` |
| `Mailto.ReadBackMessage` | script.js:107-113 | as written, a message without `&`, `#` or `%` (name and email without those and without tabs or line breaks) arrives with its tabs and line breaks deleted and its trailing blanks stripped, and nothing else changed |
| `Mailto.ReadBackAsWritten` | script.js:107-113 | when the subject's encoding is safe and decodes back to the subject, the other fields hold no `&`, `#`, `%`, tab or line break, and the message does not end in a blank, the link reads back as the fixed recipient, the subject, and the labelled body text |
| `Mailto.LineBreakDropped` | script.js:107-113 | as written, a message `kept\nrest` arrives as `kept` followed directly by `rest`, which differs from the typed message |
| `Mailto.TrailingBlankDropped` | script.js:107-113 | as written, a message `kept ` (ending in a space) arrives as `kept`, which differs from the typed message |
| `Mailto.AmpersandCutsMessage` | script.js:107-113 | as written, a message `kept&lost` reads back as just `kept`, which differs from the typed message |
| `Mailto.FragmentCutsMessage` | script.js:107-113 | as written, a message `kept#lost` reads back as just `kept`: the rest becomes the link's fragment |
| `Mailto.ReadBackEncoded` | script.js:107-113 | corrected link with the whole mail text encoded: when the subject's and the mail text's encodings are safe (no `&`, `#`, tab, line break or trailing blank) and decode back, the form reads back exactly, whatever `&`, `#`, `%`, tabs, line breaks or trailing blanks its fields contain |

## Left out

- Intersection geometry (`threshold: 0.1`, `rootMargin`, root) is left out because it is viewport arithmetic. `isIntersecting` is an input of each entry. The model also does not assume the browser reports only observed elements: every entry is handled the way the callback handles it.
- The selectors for the animated elements, the project images and the `.modal` elements are left out because CSS matching is outside the core. The selection is an input: a sequence for the setup loop, and the set `modals` for the Escape and click handlers.
- Timers are left out: `setInterval` and its 3000 ms period become a tick count. The background-image URL strings are also left out, since only the index is modelled.
- The side effects of submission are left out because they are I/O: `preventDefault`, reading the `.value`s, the `alert`, `reset()`, and the null check on the form. Navigating to the link is modelled only by what the URL parser does to the link text before a mail client sees it.
- The URL parser also percent-encodes spaces, other control characters, `"`, `<`, `>` and non-ASCII characters in the query. This is left out because for ASCII text the mail client's decoding gives back the same text.
- `encodeURIComponent` is a parameter. The read-back lemmas assume, only for the texts the link actually encodes, that the encoding holds no `&`, `#`, tab, line break or trailing blank and percent-decodes back to the text (`EncodesBack`). `encodeURIComponent` escapes all of these, so this holds for every ASCII text.
- Percent-decoding maps each `%XY` to the character with code `0xXY`. This is exact for ASCII. Multi-byte UTF-8 sequences are not reassembled. A `%` that is not followed by two hex digits is kept as is.
- ReadBackAsWritten: covers only subjects whose `encodeURIComponent` form decodes back byte by byte, which means ASCII subjects, because the decoder does not reassemble UTF-8.
- ReadBackMessage: covers only ASCII subjects, for the same reason.
- LineBreakDropped: covers only ASCII subjects, for the same reason.
- TrailingBlankDropped: covers only ASCII subjects, for the same reason.
- AmpersandCutsMessage: covers only ASCII subjects, for the same reason.
- FragmentCutsMessage: covers only ASCII subjects, for the same reason.
- ReadBackEncoded: covers only ASCII subjects and ASCII mail texts, for the same reason.
- `ReadMailto` takes the recipient as written, without decoding it. The fixed recipient holds no escapes.
- Display values come from the stylesheet until the script first sets them. That unknown value is modelled as `DisplayUnset`. An element is identified by its `id`. `Valid` says that every `modal`-class element is among the elements `getElementById` finds. The handlers keep the findable ids unchanged on a valid page. They do not require validity.
- The order in which the page-load handlers are registered is left out, because they act on separate state.
- MailtoLink: has no ensures of its own. Its body is the source's template. What the link means is stated by `ReadBackAsWritten`, `AmpersandCutsMessage` and `FragmentCutsMessage`.
- EmailBody: has no ensures of its own. It is the body template of script.js:107. What it means is stated by `BodyDecodes`.
- Compose: has no ensures of its own. It is the link template of script.js:110. What it means is stated by `ParseComposed` and `ReadComposed`.
- IndexAfter: has no ensures of its own. It iterates the tick of script.js:79-88. What it means is stated by `IndexAfterClosedForm`, `IndexAfterBounds` and `IndexAfterPeriodic`.
- MaxImagesAsWritten: has no ensures of its own. It is the lookup of script.js:78 as written. What it means is stated by `AsWrittenAgreesOffPrototype`, `ConstructorBreaksSlideshow` and `ProjectIndices`.
- TickAsWritten: has no ensures of its own. It is the tick of script.js:86 on JavaScript numbers. What it means is stated by `ConstructorBreaksSlideshow`.
- Step: has no ensures of its own. It is the work for one entry at script.js:46-49. What it means is stated by `Batch`.
- Prepare: has no ensures of its own. It is the work for one element at script.js:57-58. What it means is stated by `Setup`.

## Findings

| source | as written | input that shows it | evidently intended | confidence | as-written member | corrected member |
|---|---|---|---|---|---|---|
| script.js:78 | the lookup with fallback to 1 is a property read on an object literal, so it also finds members inherited from `Object.prototype` | an element with `data-project="constructor"`: the image count is a function object, so the index is NaN from the first tick | any name that is not one of the four projects falls back to one image | low, not executed (needs such a name in the page markup) | `Slideshow.ConstructorBreaksSlideshow` | `Slideshow.ImageCount` |
| script.js:14, script.js:22, script.js:33 | every close path sets `overflow = auto` | open modal `a`, open modal `b`, close `a`: `b` is still shown over a page that scrolls | scrolling stays locked while any modal is shown | medium, not executed (needs two modals shown at once) | `Modal.CloseUnlocksWhileAnotherIsOpen` | `Modal.RunLockedKeepsLock` |
| script.js:107 | name, email and message go into the `body` parameter unencoded | message `a&b`: the mail client's body ends after `Message:\r\na` | the body text is percent-encoded, as the subject is | medium, not executed | `Mailto.AmpersandCutsMessage` | `Mailto.ReadBackEncoded` |
| script.js:107 | name, email and message go into the `body` parameter unencoded, so a `#` in them starts the link's fragment | message `a#b`: the mail client's body ends after `Message:\r\na` | the body text is percent-encoded, as the subject is | medium, not executed | `Mailto.FragmentCutsMessage` | `Mailto.ReadBackEncoded` |
| script.js:107 | name, email and message go into the `body` parameter unencoded, so the URL parser deletes their tabs and line breaks | message `a\nb` (a two-line text area): the mail says `ab` | the body text is percent-encoded, as the subject is | medium, not executed | `Mailto.LineBreakDropped` | `Mailto.ReadBackEncoded` |
| script.js:107 | the message ends the link unencoded, so the URL parser strips its trailing spaces | message `Hello `: the mail says `Hello` | the body text is percent-encoded, as the subject is | low, not executed (only trailing blanks are lost) | `Mailto.TrailingBlankDropped` | `Mailto.ReadBackEncoded` |

=== FILE: dom.dfy ===
/** Vocabulary shared by the page handlers: element identities and the
    class names the script adds or tests. */
module Dom {

  /** An abstract identity of one element of the page; `getElementById`
      finds an element through it. */
  type ElementId = string

  type ClassName = string

  /** Class added to every animated element at page load. */
  const HiddenClass: ClassName := "hidden"

  /** Class added to an animated element once it scrolls into view. */
  const ShowClass: ClassName := "show"

  /** Class carried by every modal dialog (and by its backdrop). */
  const ModalClass: ClassName := "modal"
}

=== FILE: mailto.dfy ===
/** The contact form's submit handler: it composes a `mailto:` link to a fixed
    recipient whose `subject` is the encoded subject field and whose `body`
    joins literal labels with the escaped line break `%0D%0A`, inserting the
    name, email and message fields exactly as typed. `encode` stands for
    `encodeURIComponent`. */
module Mailto {
  import opened Wrappers
  import opened Uri

  /** The fixed recipient of every contact mail. */
  const Recipient: string := "silmiyushini1919@gmail.com"

  /** The mail a reader should see: the labels and fields separated by
      carriage-return/line-feed pairs. */
  function PlainText(name: string, email: string, message: string): string {
    "Name: " + name + "\r\nEmail: " + email + "\r\n\r\nMessage:\r\n" + message
  }

  /** The body parameter as the handler builds it. */
  function EmailBody(name: string, email: string, message: string): string {
    "Name: " + name + "%0D%0AEmail: " + email + "%0D%0A%0D%0AMessage:%0D%0A" + message
  }

  /** The link template: the recipient, the given (already encoded)
      subject and the given body. */
  function Compose(encodedSubject: string, body: string): string {
    "mailto:" + Recipient + "?subject=" + encodedSubject + "&body=" + body
  }

  /** The link the submit handler navigates to. */
  function MailtoLink(encode: string -> string, name: string, email: string, subject: string, message: string): string {
    Compose(encode(subject), EmailBody(name, email, message))
  }

  /** A mail as the mail client opens it. */
  datatype Mail = Mail(to: string, subject: string, body: string)

  /** What a mail client makes of a link: the recipient (taken as written;
      the fixed recipient holds no escape), the decoded first `subject` and
      the decoded first `body` (empty when absent). */
  function ReadMailto(link: string): Option<Mail> {
    match ParseMailto(link)
    case None => None
    case Some(u) =>
      var subject := match Lookup(u.hfields, "subject") case Some(v) => v case None => "";
      var body := match Lookup(u.hfields, "body") case Some(v) => v case None => "";
      Some(Mail(u.to, PercentDecode(subject), PercentDecode(body)))
  }

  /** `enc` is a safe encoding of `s`: it holds neither the field separator
      `&` nor the fragment mark `#`, nothing the URL parser deletes (a tab, a
      line break, a trailing blank), and percent-decodes back to `s`. */
  predicate EncodesBack(enc: string, s: string) {
    '&' !in enc && '#' !in enc && NoTabNewline(enc) && NoTrailingBlank(enc) && PercentDecode(enc) == s
  }

  /** The composed link, cut where a reader of it cuts. */
  lemma ComposeShape(es: string, body: string)
    ensures Compose(es, body) == "mailto:" + (Recipient + (['?'] + (("subject=" + es) + ['&'] + ("body=" + body))))
  {
    assert "?subject=" == ['?'] + "subject=";
    assert "&body=" == ['&'] + "body=";
  }

  /** A query holding a subject and then a body splits into the subject
      field and the body up to its first `&`. */
  lemma QueryParts(es: string, body: string)
    requires '&' !in es
    ensures var parts := Split(("subject=" + es) + ['&'] + ("body=" + body), '&');
      && |parts| >= 2
      && parts[0] == "subject=" + es
      && parts[1] == "body=" + body[..IndexOf(body, '&')]
  {
    var s := "subject=" + es;
    var t := "body=" + body;
    assert '&' !in s by {
      assert '&' !in "subject=";
    }
    SplitAfterPiece(s, t, '&');
    assert '&' !in "body=";
    UpToAfterPrefix("body=", body, '&');
  }

  /** The header fields of a query holding a subject and then a body. */
  lemma QueryFields(parts: seq<string>, es: string, b: string)
    requires |parts| >= 2 && parts[0] == "subject=" + es && parts[1] == "body=" + b
    ensures var fs := Fields(parts);
      && |fs| >= 2
      && fs[0] == ("subject", es)
      && fs[1] == ("body", b)
  {
    assert Fields(parts)[0] == ("subject", es) by {
      assert parts[0] == "subject" + ['='] + es;
      assert '=' !in "subject";
      SplitFirstAfterPiece("subject", es, '=');
    }
    assert Fields(parts)[1] == ("body", b) by {
      assert parts[1] == "body" + ['='] + b;
      assert '=' !in "body";
      SplitFirstAfterPiece("body", b, '=');
    }
  }

  /** Looking up the subject and the body in such fields. */
  lemma LookupSubjectBody(fs: seq<(string, string)>, es: string, b: string)
    requires |fs| >= 2 && fs[0] == ("subject", es) && fs[1] == ("body", b)
    ensures Lookup(fs, "subject") == Some(es)
    ensures Lookup(fs, "body") == Some(b)
  {
    assert "subject" != "body";
    assert fs[1..][0] == fs[1];
  }

  /** The recipient part and the query of a link. */
  lemma HierOfRest(q: string)
    ensures ParseHier(Recipient + (['?'] + q)) == MailtoUri(Recipient, Fields(Split(q, '&')))
  {
    var rest := Recipient + (['?'] + q);
    assert '?' !in Recipient;
    IndexOfAfterPrefix(Recipient, ['?'] + q, '?');
    assert rest[..|Recipient|] == Recipient;
    assert rest[|Recipient| + 1..] == q;
  }

  /** The part of a composed link after the scheme, for a body without
      `#`: the recipient, then the subject up to the first `&`, then the
      body up to its first `&`. */
  lemma HierComposed(es: string, body: string)
    requires '&' !in es
    ensures var u := ParseHier(Compose(es, body)[7..]);
      && u.to == Recipient
      && Lookup(u.hfields, "subject") == Some(es)
      && Lookup(u.hfields, "body") == Some(UpTo(body, '&'))
  {
    var q := ("subject=" + es) + ['&'] + ("body=" + body);
    assert Compose(es, body)[7..] == Recipient + (['?'] + q) by {
      ComposeShape(es, body);
    }
    HierOfRest(q);
    QueryParts(es, body);
    QueryFields(Split(q, '&'), es, UpTo(body, '&'));
    LookupSubjectBody(Fields(Split(q, '&')), es, UpTo(body, '&'));
  }

  /** The fragment of a composed link starts at the first `#` of its body. */
  lemma FragmentOfCompose(es: string, body: string)
    requires '#' !in es
    ensures UpTo(Compose(es, body)[7..], '#') == Compose(es, UpTo(body, '#'))[7..]
  {
    var head := "mailto:" + Recipient + "?subject=" + es + "&body=";
    assert '#' !in head;
    UpToAfterHead(head, body, 7, '#');
  }

  /** Appending to the message appends to the body. */
  lemma EmailBodyAppend(name: string, email: string, kept: string, rest: string)
    ensures EmailBody(name, email, kept + rest) == EmailBody(name, email, kept) + rest
  {
  }

  /** A body built from fields without `&`, `#`, tabs or line breaks holds
      none of them. */
  lemma EmailBodyPlain(name: string, email: string, message: string)
    requires '&' !in name && '&' !in email && '&' !in message
    requires '#' !in name && '#' !in email && '#' !in message
    requires NoTabNewline(name) && NoTabNewline(email) && NoTabNewline(message)
    ensures '&' !in EmailBody(name, email, message) && '#' !in EmailBody(name, email, message)
    ensures NoTabNewline(EmailBody(name, email, message))
  {
    NotInBody('&', name, email, message);
    NotInBody('#', name, email, message);
    NotInBody('\t', name, email, message);
    NotInBody('\n', name, email, message);
    NotInBody('\r', name, email, message);
  }

  /** A character absent from the fields and the labels is absent from the
      body. */
  lemma NotInBody(c: char, name: string, email: string, message: string)
    requires c !in name && c !in email && c !in message
    requires c !in "Name: " && c !in "%0D%0AEmail: " && c !in "%0D%0A%0D%0AMessage:%0D%0A"
    ensures c !in EmailBody(name, email, message)
  {
  }

  /** The body template before the message: free of tabs and line breaks
      when name and email are, and ending in the `A` of `%0D%0A`. */
  lemma BodyHead(name: string, email: string)
    requires NoTabNewline(name) && NoTabNewline(email)
    ensures var head := EmailBody(name, email, "");
      && head != [] && NoTrailingBlank(head) && NoTabNewline(head)
  {
    var head := EmailBody(name, email, "");
    var tail := "%0D%0A%0D%0AMessage:%0D%0A";
    assert head == ("Name: " + name + "%0D%0AEmail: " + email) + tail + "";
    assert tail[|tail| - 1] == 'A';
    assert head[|head| - 1] == 'A';
    NotInBody('\t', name, email, "");
    NotInBody('\n', name, email, "");
    NotInBody('\r', name, email, "");
  }

  /** The URL parser leaves a composed link alone up to its body and reworks
      only the body. */
  lemma PreprocessCompose(es: string, body: string)
    requires NoTabNewline(es)
    ensures Preprocess(Compose(es, body)) == Compose(es, AsParsed(body))
  {
    var head := "mailto:" + Recipient + "?subject=" + es + "&body=";
    ComposeHead(es);
    assert Compose(es, body) == head + body;
    assert (head + body)[0] == head[0];
    AsParsedAfterHead(head, body);
  }

  /** The link template before the body starts and ends visibly and holds
      no tab or line break when the subject holds none. */
  lemma ComposeHead(es: string)
    requires NoTabNewline(es)
    ensures var head := "mailto:" + Recipient + "?subject=" + es + "&body=";
      && head != [] && head[0] > ' ' && NoTrailingBlank(head) && NoTabNewline(head)
  {
    var lead := "mailto:" + Recipient + "?subject=";
    var head := lead + es + "&body=";
    assert head[0] == lead[0] == 'm';
    assert head[|head| - 1] == '=';
    assert NoTabNewline(lead) && NoTabNewline("&body=");
  }

  /** The structure of a composed link as the mail client gets it: the
      recipient, then the subject up to the first `&`, then the body as the
      URL parser keeps it, up to its first `#` and, within that, up to its
      first `&`. */
  lemma ParseComposed(es: string, body: string)
    requires '&' !in es && '#' !in es && NoTabNewline(es)
    ensures var u := ParseMailto(Compose(es, body));
      && u.Some?
      && u.value.to == Recipient
      && Lookup(u.value.hfields, "subject") == Some(es)
      && Lookup(u.value.hfields, "body") == Some(UpTo(UpTo(AsParsed(body), '#'), '&'))
  {
    var b := AsParsed(body);
    PreprocessCompose(es, body);
    ComposeShape(es, b);
    FragmentOfCompose(es, b);
    HierComposed(es, UpTo(b, '#'));
  }

  /** The body template, cut at its escaped line breaks. */
  lemma EmailBodyPieces(name: string, email: string, message: string)
    ensures EmailBody(name, email, message)
            == "Name: " + (name + ("%0D%0A" + ("Email: " + (email + ("%0D%0A" + ("%0D%0A" + ("Message:" + ("%0D%0A" + message))))))))
  {
    assert "%0D%0AEmail: " == "%0D%0A" + "Email: ";
    assert "%0D%0A%0D%0AMessage:%0D%0A" == "%0D%0A" + "%0D%0A" + "Message:" + "%0D%0A";
  }

  /** The plain mail text, cut at its line breaks. */
  lemma PlainTextPieces(name: string, email: string, message: string)
    ensures PlainText(name, email, message)
            == "Name: " + (name + ("\r\n" + ("Email: " + (email + ("\r\n" + ("\r\n" + ("Message:" + ("\r\n" + message))))))))
  {
    assert "\r\nEmail: " == "\r\n" + "Email: ";
    assert "\r\n\r\nMessage:\r\n" == "\r\n" + "\r\n" + "Message:" + "\r\n";
  }

  /** Fields without `%` decode back to the plain mail text. */
  lemma BodyDecodes(name: string, email: string, message: string)
    requires '%' !in name && '%' !in email && '%' !in message
    ensures PercentDecode(EmailBody(name, email, message)) == PlainText(name, email, message)
  {
    var t7 := "%0D%0A" + message;
    var t6 := "Message:" + t7;
    var t5 := "%0D%0A" + t6;
    var t4 := "%0D%0A" + t5;
    var t3 := email + t4;
    var t2 := "Email: " + t3;
    var t1 := "%0D%0A" + t2;
    var t0 := name + t1;
    EmailBodyPieces(name, email, message);
    PlainTextPieces(name, email, message);
    DecodePlain(message);
    DecodeLineBreak(message);
    DecodePlainPrefix("Message:", t7);
    DecodeLineBreak(t6);
    DecodeLineBreak(t5);
    DecodePlainPrefix(email, t4);
    DecodePlainPrefix("Email: ", t3);
    DecodeLineBreak(t2);
    DecodePlainPrefix(name, t1);
    DecodePlainPrefix("Name: ", t0);
  }

  /** What a mail client reads from a composed link. */
  lemma ReadComposed(es: string, body: string)
    requires '&' !in es && '#' !in es && NoTabNewline(es)
    ensures ReadMailto(Compose(es, body))
            == Some(Mail(Recipient, PercentDecode(es), PercentDecode(UpTo(UpTo(AsParsed(body), '#'), '&'))))
  {
    ParseComposed(es, body);
  }

  /** As written, a message without `&`, `#` or `%` arrives as the URL parser
      keeps it: with its tabs and line breaks deleted and its trailing blanks
      stripped. */
  lemma ReadBackMessage(encode: string -> string, name: string, email: string, subject: string, message: string)
    requires EncodesBack(encode(subject), subject)
    requires '&' !in name && '&' !in email && '&' !in message
    requires '#' !in name && '#' !in email && '#' !in message
    requires '%' !in name && '%' !in email && '%' !in message
    requires NoTabNewline(name) && NoTabNewline(email)
    ensures ReadMailto(MailtoLink(encode, name, email, subject, message))
            == Some(Mail(Recipient, subject, PlainText(name, email, AsParsed(message))))
  {
    var m := AsParsed(message);
    var head := EmailBody(name, email, "");
    var body := EmailBody(name, email, message);
    assert body == head + message by {
      assert "" + message == message;
      EmailBodyAppend(name, email, "", message);
    }
    assert EmailBody(name, email, m) == head + m by {
      assert "" + m == m;
      EmailBodyAppend(name, email, "", m);
    }
    BodyHead(name, email);
    AsParsedAfterHead(head, message);
    AsParsedKeepsOut(message, '&');
    AsParsedKeepsOut(message, '#');
    AsParsedKeepsOut(message, '%');
    EmailBodyPlain(name, email, m);
    ReadComposed(encode(subject), body);
    BodyDecodes(name, email, m);
  }

  /** As written, a link read back by a mail client gives the recipient, the
      subject and the intended text, provided the subject's encoding decodes
      back and the unencoded fields hold no `&`, `#`, `%`, tab or line break
      and the message does not end in a blank. */
  lemma ReadBackAsWritten(encode: string -> string, name: string, email: string, subject: string, message: string)
    requires EncodesBack(encode(subject), subject)
    requires '&' !in name && '&' !in email && '&' !in message
    requires '#' !in name && '#' !in email && '#' !in message
    requires '%' !in name && '%' !in email && '%' !in message
    requires NoTabNewline(name) && NoTabNewline(email) && NoTabNewline(message)
    requires NoTrailingBlank(message)
    ensures ReadMailto(MailtoLink(encode, name, email, subject, message))
            == Some(Mail(Recipient, subject, PlainText(name, email, message)))
  {
    ReadBackMessage(encode, name, email, subject, message);
  }

  /** As written, a line break in the message is lost: the URL parser
      deletes it (with the message "a\nb" the mail says "ab"). */
  lemma LineBreakDropped(encode: string -> string, name: string, email: string, subject: string, kept: string, rest: string)
    requires EncodesBack(encode(subject), subject)
    requires '&' !in name && '&' !in email && '&' !in kept && '&' !in rest
    requires '#' !in name && '#' !in email && '#' !in kept && '#' !in rest
    requires '%' !in name && '%' !in email && '%' !in kept && '%' !in rest
    requires NoTabNewline(name) && NoTabNewline(email) && NoTabNewline(kept) && NoTabNewline(rest)
    requires NoTrailingBlank(kept + rest)
    ensures ReadMailto(MailtoLink(encode, name, email, subject, kept + "\n" + rest))
            == Some(Mail(Recipient, subject, PlainText(name, email, kept + rest)))
    ensures PlainText(name, email, kept + rest) != PlainText(name, email, kept + "\n" + rest)
  {
    var m := kept + "\n" + rest;
    assert AsParsed(m) == kept + rest by {
      if rest == [] {
        assert m[..|m| - 1] == kept;
        assert kept + rest == kept;
        assert TrimEnd(m) == kept;
      } else {
        assert m[|m| - 1] == rest[|rest| - 1] == (kept + rest)[|kept + rest| - 1];
        assert TrimEnd(m) == m;
        DropTabNewlineAppend(kept + "\n", rest);
        DropTabNewlineAppend(kept, "\n");
        assert DropTabNewline("\n") == [];
        assert kept + [] == kept;
      }
    }
    ReadBackMessage(encode, name, email, subject, m);
    assert |PlainText(name, email, kept + rest)| < |PlainText(name, email, m)|;
  }

  /** As written, a trailing space in the message is lost: the URL parser
      strips it from the end of the link (with the message "Hello " the mail
      says "Hello"). */
  lemma TrailingBlankDropped(encode: string -> string, name: string, email: string, subject: string, kept: string)
    requires EncodesBack(encode(subject), subject)
    requires '&' !in name && '&' !in email && '&' !in kept
    requires '#' !in name && '#' !in email && '#' !in kept
    requires '%' !in name && '%' !in email && '%' !in kept
    requires NoTabNewline(name) && NoTabNewline(email) && NoTabNewline(kept)
    requires NoTrailingBlank(kept)
    ensures ReadMailto(MailtoLink(encode, name, email, subject, kept + " "))
            == Some(Mail(Recipient, subject, PlainText(name, email, kept)))
    ensures PlainText(name, email, kept) != PlainText(name, email, kept + " ")
  {
    var m := kept + " ";
    assert AsParsed(m) == kept by {
      assert m[..|m| - 1] == kept;
      assert TrimEnd(m) == kept;
    }
    ReadBackMessage(encode, name, email, subject, m);
    assert |PlainText(name, email, kept)| < |PlainText(name, email, m)|;
  }

  /** A body value that reaches an `&` ends there, whatever follows. */
  lemma CutAtAmpersand(cut: string, lost: string)
    requires '&' !in cut && '#' !in cut && NoTabNewline(cut)
    ensures UpTo(UpTo(AsParsed((cut + "&") + lost), '#'), '&') == cut
  {
    var head := cut + "&";
    assert head[|head| - 1] == '&' && '#' !in head;
    AsParsedAfterHead(head, lost);
    UpToAfterPrefix(head, AsParsed(lost), '#');
    UpToMark(cut, '&', UpTo(AsParsed(lost), '#'));
  }

  /** A body value that reaches a `#` ends there: the rest is the fragment. */
  lemma CutAtFragment(cut: string, lost: string)
    requires '&' !in cut && '#' !in cut && NoTabNewline(cut)
    ensures UpTo(UpTo(AsParsed((cut + "#") + lost), '#'), '&') == cut
  {
    var head := cut + "#";
    assert head[|head| - 1] == '#';
    AsParsedAfterHead(head, lost);
    UpToMark(cut, '#', AsParsed(lost));
  }

  /** As written, a message containing `&` is cut short: the mail client
      takes the text before the first `&` for the whole message (with the
      message "a&b" the mail says only "a"). */
  lemma AmpersandCutsMessage(encode: string -> string, name: string, email: string, subject: string, kept: string, lost: string)
    requires EncodesBack(encode(subject), subject)
    requires '&' !in name && '&' !in email && '&' !in kept
    requires '#' !in name && '#' !in email && '#' !in kept
    requires '%' !in name && '%' !in email && '%' !in kept
    requires NoTabNewline(name) && NoTabNewline(email) && NoTabNewline(kept)
    ensures ReadMailto(MailtoLink(encode, name, email, subject, kept + "&" + lost))
            == Some(Mail(Recipient, subject, PlainText(name, email, kept)))
    ensures PlainText(name, email, kept) != PlainText(name, email, kept + "&" + lost)
  {
    var cut := EmailBody(name, email, kept);
    var body := EmailBody(name, email, kept + "&" + lost);
    assert body == (cut + "&") + lost by {
      assert kept + "&" + lost == kept + ("&" + lost);
      EmailBodyAppend(name, email, kept, "&" + lost);
    }
    EmailBodyPlain(name, email, kept);
    CutAtAmpersand(cut, lost);
    ReadComposed(encode(subject), body);
    BodyDecodes(name, email, kept);
    assert |PlainText(name, email, kept)| < |PlainText(name, email, kept + "&" + lost)|;
  }

  /** As written, a message containing `#` is cut short too: the browser
      takes the text from the first `#` on for the link's fragment (with the
      message "a#b" the mail says only "a"). */
  lemma FragmentCutsMessage(encode: string -> string, name: string, email: string, subject: string, kept: string, lost: string)
    requires EncodesBack(encode(subject), subject)
    requires '&' !in name && '&' !in email && '&' !in kept
    requires '#' !in name && '#' !in email && '#' !in kept
    requires '%' !in name && '%' !in email && '%' !in kept
    requires NoTabNewline(name) && NoTabNewline(email) && NoTabNewline(kept)
    ensures ReadMailto(MailtoLink(encode, name, email, subject, kept + "#" + lost))
            == Some(Mail(Recipient, subject, PlainText(name, email, kept)))
    ensures PlainText(name, email, kept) != PlainText(name, email, kept + "#" + lost)
  {
    var cut := EmailBody(name, email, kept);
    var body := EmailBody(name, email, kept + "#" + lost);
    assert body == (cut + "#") + lost by {
      assert kept + "#" + lost == kept + ("#" + lost);
      EmailBodyAppend(name, email, kept, "#" + lost);
    }
    EmailBodyPlain(name, email, kept);
    CutAtFragment(cut, lost);
    ReadComposed(encode(subject), body);
    BodyDecodes(name, email, kept);
    assert |PlainText(name, email, kept)| < |PlainText(name, email, kept + "#" + lost)|;
  }

  /** The link with every field encoded: the whole mail text goes through
      `encode` as the body parameter. */
  function MailtoLinkEncoded(encode: string -> string, name: string, email: string, subject: string, message: string): string
  {
    Compose(encode(subject), encode(PlainText(name, email, message)))
  }

  /** With every field encoded, any contact form whose subject and mail text
      encode back reads back exactly, whatever `&`, `#`, `%`, tabs, line
      breaks or trailing blanks its fields contain. */
  lemma ReadBackEncoded(encode: string -> string, name: string, email: string, subject: string, message: string)
    requires EncodesBack(encode(subject), subject)
    requires EncodesBack(encode(PlainText(name, email, message)), PlainText(name, email, message))
    ensures ReadMailto(MailtoLinkEncoded(encode, name, email, subject, message))
            == Some(Mail(Recipient, subject, PlainText(name, email, message)))
  {
    ReadComposed(encode(subject), encode(PlainText(name, email, message)));
  }
}

=== FILE: modal.dfy ===
/** The modal controller: `openModal` and `closeModal` by element id, a
    window click handler that hides a clicked `modal`-class element, and an
    Escape-key handler that hides every `modal`-class element. Every close
    path unlocks page scrolling (`overflow = auto`), even while another modal
    is still shown; the `...Locked` variants at the end recompute the lock
    from what is still open instead. */
module Modal {
  import opened Dom

  /** The inline `style.display` of an element: never set, `flex` or `none`. */
  datatype Display = DisplayUnset | DisplayFlex | DisplayNone

  /** The inline `style.overflow` of the page body. */
  datatype Overflow = OverflowUnset | OverflowHidden | OverflowAuto

  /** The state the controller reads and writes: the inline display of every
      element `getElementById` can find, the body's overflow, and the
      elements that carry class `modal`. */
  datatype Page = Page(display: map<ElementId, Display>, overflow: Overflow, modals: set<ElementId>)

  /** Every `modal`-class element is an element of the page, so the handlers
      never change which ids `getElementById` finds. */
  predicate Valid(p: Page) {
    p.modals <= p.display.Keys
  }

  /** The inline display of `e` (unset for an element without an entry). */
  function DisplayOf(p: Page, e: ElementId): Display {
    if e in p.display then p.display[e] else DisplayUnset
  }

  /** Whether some element is shown as a modal (`display = flex`). */
  predicate AnyOpen(p: Page) {
    exists e :: e in p.display && p.display[e] == DisplayFlex
  }

  /** Page scrolling is locked exactly while some modal is shown. */
  predicate LockMatchesOpen(p: Page) {
    p.overflow == OverflowHidden <==> AnyOpen(p)
  }

  /** `openModal(id)`: a missing id changes nothing; otherwise the element is
      shown as a flex box and page scrolling is locked. */
  function OpenModal(p: Page, id: ElementId): (r: Page)
    ensures id !in p.display ==> r == p
    ensures id in p.display ==> DisplayOf(r, id) == DisplayFlex && r.overflow == OverflowHidden
    ensures forall e :: e != id ==> DisplayOf(r, e) == DisplayOf(p, e)
    ensures r.display.Keys == p.display.Keys && r.modals == p.modals
  {
    if id in p.display then p.(display := p.display[id := DisplayFlex], overflow := OverflowHidden)
    else p
  }

  /** `closeModal(id)`: a missing id changes nothing; otherwise the element is
      hidden and page scrolling is unlocked, whatever else is still shown. */
  function CloseModal(p: Page, id: ElementId): (r: Page)
    ensures id !in p.display ==> r == p
    ensures id in p.display ==> DisplayOf(r, id) == DisplayNone && r.overflow == OverflowAuto
    ensures forall e :: e != id ==> DisplayOf(r, e) == DisplayOf(p, e)
    ensures r.display.Keys == p.display.Keys && r.modals == p.modals
  {
    if id in p.display then p.(display := p.display[id := DisplayNone], overflow := OverflowAuto)
    else p
  }

  /** The window click handler: a click on an element carrying class `modal`
      (the backdrop around a dialog's content) hides that element and unlocks
      scrolling; a click anywhere else changes nothing. */
  function OnClick(p: Page, target: ElementId): (r: Page)
    ensures target !in p.modals ==> r == p
    ensures target in p.modals ==> DisplayOf(r, target) == DisplayNone && r.overflow == OverflowAuto
    ensures forall e :: e != target ==> DisplayOf(r, e) == DisplayOf(p, e)
    ensures r.modals == p.modals
    ensures Valid(p) ==> r.display.Keys == p.display.Keys
  {
    if target in p.modals then p.(display := p.display[target := DisplayNone], overflow := OverflowAuto)
    else p
  }

  /** The keydown handler: Escape hides every element carrying class `modal`
      and unlocks scrolling; any other key changes nothing. */
  function OnKeyDown(p: Page, key: string): (r: Page)
    ensures key != "Escape" ==> r == p
    ensures key == "Escape" ==> r.overflow == OverflowAuto
    ensures key == "Escape" ==> forall e :: DisplayOf(r, e) == if e in p.modals then DisplayNone else DisplayOf(p, e)
    ensures r.modals == p.modals
    ensures Valid(p) ==> r.display.Keys == p.display.Keys
  {
    if key == "Escape" then
      p.(display := map e | e in p.display.Keys + p.modals :: if e in p.modals then DisplayNone else p.display[e],
         overflow := OverflowAuto)
    else p
  }

  /** Opening then closing the same modal leaves it hidden and the page
      unlocked; for a missing id the pair does nothing at all. */
  lemma OpenThenClose(p: Page, id: ElementId)
    ensures id in p.display ==> DisplayOf(CloseModal(OpenModal(p, id), id), id) == DisplayNone
    ensures id in p.display ==> CloseModal(OpenModal(p, id), id).overflow == OverflowAuto
    ensures id !in p.display ==> CloseModal(OpenModal(p, id), id) == p
  {
  }

  /** Closing is idempotent, and so is pressing Escape. */
  lemma CloseIdempotent(p: Page, id: ElementId, key: string)
    ensures CloseModal(CloseModal(p, id), id) == CloseModal(p, id)
    ensures OnKeyDown(OnKeyDown(p, key), key) == OnKeyDown(p, key)
  {
    if key == "Escape" {
      var r := OnKeyDown(p, key);
      assert r.display.Keys == p.display.Keys + p.modals;
      assert OnKeyDown(r, key).display == r.display;
    }
  }

  /** After Escape no `modal`-class element is shown; when every shown
      element is a modal, the unlocked page then matches what is open. */
  lemma EscapeClosesAll(p: Page)
    ensures forall e :: e in p.modals ==> DisplayOf(OnKeyDown(p, "Escape"), e) != DisplayFlex
    ensures (forall e :: e in p.display && p.display[e] == DisplayFlex ==> e in p.modals) ==>
              LockMatchesOpen(OnKeyDown(p, "Escape"))
  {
  }

  /** The as-written scroll lock goes wrong with two modals: open `a`, open
      `b`, close `a`, and the page scrolls behind the still-shown `b`. */
  lemma CloseUnlocksWhileAnotherIsOpen()
    ensures var p0 := Page(map["a" := DisplayUnset, "b" := DisplayUnset], OverflowUnset, {"a", "b"});
      var p3 := CloseModal(OpenModal(OpenModal(p0, "a"), "b"), "a");
      && DisplayOf(p3, "b") == DisplayFlex
      && p3.overflow == OverflowAuto
      && LockMatchesOpen(OpenModal(OpenModal(p0, "a"), "b"))
      && !LockMatchesOpen(p3)
  {
    var p0 := Page(map["a" := DisplayUnset, "b" := DisplayUnset], OverflowUnset, {"a", "b"});
    var p2 := OpenModal(OpenModal(p0, "a"), "b");
    var p3 := CloseModal(p2, "a");
    assert p2.display["b"] == DisplayFlex;
    assert p3.display["b"] == DisplayFlex;
  }

  // ---------------------------------------------------------------------
  // The controller with the scroll lock derived from what is still open.

  /** Recomputes the body's overflow from the modals that are still shown. */
  function Relock(p: Page): (r: Page)
    ensures LockMatchesOpen(r)
    ensures r.display == p.display && r.modals == p.modals
  {
    p.(overflow := if AnyOpen(p) then OverflowHidden else OverflowAuto)
  }

  /** `closeModal` that unlocks scrolling only once nothing is shown. */
  function CloseModalLocked(p: Page, id: ElementId): (r: Page)
    ensures LockMatchesOpen(p) ==> LockMatchesOpen(r)
    ensures forall e :: DisplayOf(r, e) == DisplayOf(CloseModal(p, id), e)
    ensures Valid(p) ==> Valid(r) && r.display.Keys == p.display.Keys
  {
    if id in p.display then Relock(CloseModal(p, id)) else p
  }

  /** The click handler with the derived scroll lock. */
  function OnClickLocked(p: Page, target: ElementId): (r: Page)
    ensures LockMatchesOpen(p) ==> LockMatchesOpen(r)
    ensures forall e :: DisplayOf(r, e) == DisplayOf(OnClick(p, target), e)
    ensures Valid(p) ==> Valid(r) && r.display.Keys == p.display.Keys
  {
    if target in p.modals then Relock(OnClick(p, target)) else p
  }

  /** The Escape handler with the derived scroll lock. */
  function OnKeyDownLocked(p: Page, key: string): (r: Page)
    ensures LockMatchesOpen(p) ==> LockMatchesOpen(r)
    ensures forall e :: DisplayOf(r, e) == DisplayOf(OnKeyDown(p, key), e)
    ensures Valid(p) ==> Valid(r) && r.display.Keys == p.display.Keys
  {
    if key == "Escape" then Relock(OnKeyDown(p, key)) else p
  }

  /** `openModal` already keeps the lock right: it locks as it shows. */
  lemma OpenKeepsLock(p: Page, id: ElementId)
    requires LockMatchesOpen(p)
    ensures LockMatchesOpen(OpenModal(p, id))
  {
    var r := OpenModal(p, id);
    if id in p.display {
      assert r.display[id] == DisplayFlex;
    }
  }

  /** The corrected close differs from the original only when another modal
      is still shown: once nothing is open, both leave the same page. */
  lemma LockedCloseAgreesWhenLastClosed(p: Page, id: ElementId)
    requires !AnyOpen(CloseModal(p, id))
    ensures CloseModalLocked(p, id) == CloseModal(p, id)
  {
  }

  /** The events the controller reacts to. */
  datatype Event = Open(id: ElementId) | Close(id: ElementId) | Click(target: ElementId) | KeyDown(key: string)

  /** One event, handled by the corrected controller. */
  function HandleLocked(p: Page, ev: Event): Page {
    match ev
    case Open(id) => OpenModal(p, id)
    case Close(id) => CloseModalLocked(p, id)
    case Click(t) => OnClickLocked(p, t)
    case KeyDown(k) => OnKeyDownLocked(p, k)
  }

  /** A sequence of events, handled in order by the corrected controller. */
  function RunLocked(p: Page, events: seq<Event>): Page
    decreases |events|
  {
    if events == [] then p else RunLocked(HandleLocked(p, events[0]), events[1..])
  }

  /** With the derived lock, scrolling is locked exactly while some modal is
      shown, after any sequence of opens, closes, clicks and key presses; on
      a valid page the set of findable ids never changes. */
  lemma {:induction false} RunLockedKeepsLock(p: Page, events: seq<Event>)
    requires LockMatchesOpen(p)
    ensures LockMatchesOpen(RunLocked(p, events))
    ensures Valid(p) ==> Valid(RunLocked(p, events)) && RunLocked(p, events).display.Keys == p.display.Keys
    decreases |events|
  {
    if events != [] {
      if events[0].Open? {
        OpenKeepsLock(p, events[0].id);
      }
      RunLockedKeepsLock(HandleLocked(p, events[0]), events[1..]);
    }
  }
}

=== FILE: reveal.dfy ===
/** The reveal-on-scroll coordinator: at page load every animated element is
    marked `hidden` and handed to one intersection observer; the observer's
    callback adds `show` to each intersecting entry's target and stops
    observing it, so every element is revealed at most once. */
module Reveal {
  import opened Dom

  /** The part of the page the coordinator reads and writes: the class list
      of each element (an element without a key has no classes) and the
      set of elements the observer currently watches. */
  datatype Page = Page(classes: map<ElementId, set<ClassName>>, observed: set<ElementId>)

  /** One entry of an observer batch: the element it reports on and whether
      that element now intersects the viewport. */
  datatype Entry = Entry(target: ElementId, isIntersecting: bool)

  /** The class list of `e`. */
  function ClassesOf(p: Page, e: ElementId): set<ClassName> {
    if e in p.classes then p.classes[e] else {}
  }

  /** The elements of a selection (a `NodeList` in document order). */
  function Elements(s: seq<ElementId>): set<ElementId> {
    set e | e in s
  }

  /** The elements an observer batch reports as intersecting. */
  function Intersecting(batch: seq<Entry>): set<ElementId> {
    set x | x in batch && x.isIntersecting :: x.target
  }

  /** The elements that carry class `show`. */
  function Shown(p: Page): set<ElementId> {
    set e | e in p.classes && ShowClass in p.classes[e]
  }

  /** Observed elements are never already shown: an element is unobserved
      in the same step that reveals it. */
  predicate Consistent(p: Page) {
    forall e :: e in p.observed ==> ShowClass !in ClassesOf(p, e)
  }

  /** `classList.add(c)` on element `e`. */
  function AddClass(p: Page, e: ElementId, c: ClassName): (r: Page)
    ensures ClassesOf(r, e) == ClassesOf(p, e) + {c}
    ensures forall x :: x != e ==> ClassesOf(r, x) == ClassesOf(p, x)
    ensures r.classes.Keys == p.classes.Keys + {e}
    ensures r.observed == p.observed
  {
    p.(classes := p.classes[e := ClassesOf(p, e) + {c}])
  }

  /** The work the setup loop does for one selected element. */
  function Prepare(p: Page, e: ElementId): Page {
    var q := AddClass(p, e, HiddenClass);
    q.(observed := q.observed + {e})
  }

  /** The setup loop: each selected element, in document order, gets class
      `hidden` and is observed. Elements outside the selection are left as
      they were. */
  function Setup(p: Page, selected: seq<ElementId>): (r: Page)
    ensures forall e :: ClassesOf(r, e) == if e in selected then ClassesOf(p, e) + {HiddenClass} else ClassesOf(p, e)
    ensures r.observed == p.observed + Elements(selected)
    ensures r.classes.Keys == p.classes.Keys + Elements(selected)
    decreases |selected|
  {
    if selected == [] then p
    else
      assert forall e :: e in selected <==> e == selected[0] || e in selected[1..];
      Setup(Prepare(p, selected[0]), selected[1..])
  }

  /** The observer callback's work for one entry: an intersecting entry
      reveals its target and unobserves it; any other entry does nothing. */
  function Step(p: Page, entry: Entry): Page {
    if entry.isIntersecting then
      var q := AddClass(p, entry.target, ShowClass);
      q.(observed := q.observed - {entry.target})
    else p
  }

  /** The observer callback over one batch: every entry is processed in turn.
      An element is revealed and unobserved exactly when the batch holds an
      intersecting entry for it; every other element keeps its classes and
      its observed status. */
  function Batch(p: Page, batch: seq<Entry>): (r: Page)
    ensures forall e :: ClassesOf(r, e) == if Entry(e, true) in batch then ClassesOf(p, e) + {ShowClass} else ClassesOf(p, e)
    ensures forall e :: e in r.observed <==> e in p.observed && Entry(e, true) !in batch
    ensures r.classes.Keys == p.classes.Keys + Intersecting(batch)
    decreases |batch|
  {
    if batch == [] then p
    else
      assert forall x :: x in batch <==> x == batch[0] || x in batch[1..];
      Batch(Step(p, batch[0]), batch[1..])
  }

  /** The page after a sequence of observer batches, delivered in order. */
  function Run(p: Page, batches: seq<seq<Entry>>): (r: Page)
    decreases |batches|
  {
    if batches == [] then p else Run(Batch(p, batches[0]), batches[1..])
  }

  /** Two pages are equal when they agree on every class list, on the keys of
      the class map and on the observed set. */
  lemma PageExtensionality(p: Page, q: Page)
    requires p.classes.Keys == q.classes.Keys
    requires forall e :: ClassesOf(p, e) == ClassesOf(q, e)
    requires p.observed == q.observed
    ensures p == q
  {
    forall e | e in p.classes
      ensures p.classes[e] == q.classes[e]
    {
      assert ClassesOf(p, e) == ClassesOf(q, e);
    }
  }

  /** Page load: starting from a page where nothing is shown and nothing is
      observed, every selected element is hidden and observed, the observed
      set is exactly the selection, and the coordinator's invariant holds. */
  lemma SetupEstablishes(p: Page, selected: seq<ElementId>)
    requires p.observed == {}
    requires forall e :: e in selected ==> ShowClass !in ClassesOf(p, e)
    ensures var r := Setup(p, selected);
      && (forall e :: e in selected ==> HiddenClass in ClassesOf(r, e) && e in r.observed)
      && r.observed == Elements(selected)
      && Consistent(r)
  {
    var r := Setup(p, selected);
    forall e | e in r.observed
      ensures ShowClass !in ClassesOf(r, e)
    {
      assert e in selected;
      assert ShowClass != HiddenClass;
    }
  }

  /** A batch with no intersecting entry changes nothing. */
  lemma NonIntersectingBatchIsNoOp(p: Page, batch: seq<Entry>)
    requires forall x :: x in batch ==> !x.isIntersecting
    ensures Batch(p, batch) == p
  {
    var r := Batch(p, batch);
    assert Intersecting(batch) == {};
    PageExtensionality(r, p);
  }

  /** Every element a batch reports as intersecting is revealed by it, not
      just the first: the newly shown elements are exactly the intersecting
      targets that were not shown before, whatever order the batch has. */
  lemma BatchRevealsAllIntersecting(p: Page, batch: seq<Entry>)
    ensures Shown(Batch(p, batch)) == Shown(p) + Intersecting(batch)
    ensures Shown(Batch(p, batch)) - Shown(p) == Intersecting(batch) - Shown(p)
  {
    var r := Batch(p, batch);
    forall e
      ensures e in Shown(r) <==> e in Shown(p) || e in Intersecting(batch)
    {
      assert e in Intersecting(batch) <==> Entry(e, true) in batch;
      assert e in Shown(r) <==> ShowClass in ClassesOf(r, e);
      assert e in Shown(p) <==> ShowClass in ClassesOf(p, e);
    }
  }

  /** The reveal step is monotone: no class is ever removed (in particular
      `show` stays) and the observed set only shrinks. */
  lemma BatchMonotone(p: Page, batch: seq<Entry>, e: ElementId)
    ensures ClassesOf(p, e) <= ClassesOf(Batch(p, batch), e)
    ensures Batch(p, batch).observed <= p.observed
  {
  }

  /** Delivering the same batch twice has the effect of delivering it once. */
  lemma BatchIdempotent(p: Page, batch: seq<Entry>)
    ensures Batch(Batch(p, batch), batch) == Batch(p, batch)
  {
    var r := Batch(p, batch);
    var r2 := Batch(r, batch);
    PageExtensionality(r2, r);
  }

  /** The result of a batch does not depend on the order of its entries. */
  lemma BatchOrderIndependent(p: Page, b1: seq<Entry>, b2: seq<Entry>)
    requires multiset(b1) == multiset(b2)
    ensures Batch(p, b1) == Batch(p, b2)
  {
    forall x
      ensures x in b1 <==> x in b2
    {
      assert x in b1 <==> x in multiset(b1);
      assert x in b2 <==> x in multiset(b2);
    }
    assert Intersecting(b1) == Intersecting(b2);
    PageExtensionality(Batch(p, b1), Batch(p, b2));
  }

  /** Once revealed, an element is never observed again, so no later entry
      about it can matter: a batch keeps the coordinator's invariant. */
  lemma BatchPreservesConsistent(p: Page, batch: seq<Entry>)
    requires Consistent(p)
    ensures Consistent(Batch(p, batch))
  {
    var r := Batch(p, batch);
    forall e | e in r.observed
      ensures ShowClass !in ClassesOf(r, e)
    {
      assert e in p.observed && Entry(e, true) !in batch;
    }
  }

  /** Over any sequence of batches, `show` is never removed, the observed set
      only shrinks, and the invariant is kept. */
  lemma {:induction false} RunMonotone(p: Page, batches: seq<seq<Entry>>, e: ElementId)
    requires Consistent(p)
    ensures ClassesOf(p, e) <= ClassesOf(Run(p, batches), e)
    ensures Run(p, batches).observed <= p.observed
    ensures Consistent(Run(p, batches))
    decreases |batches|
  {
    if batches != [] {
      var q := Batch(p, batches[0]);
      BatchMonotone(p, batches[0], e);
      BatchPreservesConsistent(p, batches[0]);
      RunMonotone(q, batches[1..], e);
    }
  }
}

=== FILE: slideshow.dfy ===
/** The project slideshow: each project image element looks its image count
    up in a fixed table (1 for an unknown project), starts at image 1 and, on
    every timer tick, advances `index := (index % count) + 1`. Ticks are
    counted rather than timed. */
module Slideshow {

  /** The image-count table of the slideshow. */
  const ProjectImages: map<string, nat> := map["papais" := 8, "puskesmas" := 8, "guacamole" := 2, "dashboard" := 6]

  /** JavaScript's `%` on integers: the remainder truncates toward zero, so it
      takes the sign of the dividend (unlike Dafny's Euclidean `%`). */
  function JsRem(a: int, b: int): (r: int)
    requires b != 0
    ensures a >= 0 ==> 0 <= r < (if b > 0 then b else -b)
    ensures a >= 0 && b > 0 ==> r == a % b
  {
    var m := if b > 0 then b else -b;
    if a >= 0 then a % m else -((-a) % m)
  }

  /** The number of images of a project: the table entry when the table has
      the project as its own entry, 1 otherwise (and for a zero entry, as the
      `|| 1` fallback does). */
  function ImageCount(project: string): (n: nat)
    ensures n >= 1
    ensures project in ProjectImages ==> n == ProjectImages[project]
    ensures project !in ProjectImages ==> n == 1
  {
    if project in ProjectImages && ProjectImages[project] != 0 then ProjectImages[project] else 1
  }

  /** One timer tick: `(index % max) + 1`. */
  function Tick(index: int, max: nat): (r: int)
    requires max >= 1
    ensures index >= 0 ==> 1 <= r <= max
    ensures 1 <= index < max ==> r == index + 1
    ensures index == max ==> r == 1
  {
    SmallRemainders(index, max);
    JsRem(index, max) + 1
  }

  /** The index shown after `ticks` timer ticks, starting from image 1. */
  function IndexAfter(max: nat, ticks: nat): (r: int)
    requires max >= 1
    decreases ticks
  {
    if ticks == 0 then 1 else Tick(IndexAfter(max, ticks - 1), max)
  }

  /** A non-zero multiple of a positive `m` is at least `m` away from zero. */
  lemma MultipleBounds(m: int, k: int)
    requires m > 0
    ensures k >= 1 ==> m * k >= m
    ensures k <= -1 ==> m * k <= -m
  {
    if k >= 1 {
      assert m * k == m * (k - 1) + m;
      assert m * (k - 1) >= 0;
    } else if k <= -1 {
      assert m * k == -(m * (-k - 1)) - m;
      assert m * (-k - 1) >= 0;
    }
  }

  /** Division with remainder is unique: a value written as `m * q + r` with
      `0 <= r < m` has remainder `r`. */
  lemma ModUnique(a: int, m: int, q: int, r: int)
    requires m > 0 && 0 <= r < m
    requires a == m * q + r
    ensures a % m == r
  {
    var k := q - a / m;
    assert m * k == a % m - r by {
      assert m * k == m * q - m * (a / m);
    }
    MultipleBounds(m, k);
  }

  /** The remainders one tick meets: an index below `m` is its own
      remainder, and `m` itself leaves none. */
  lemma SmallRemainders(a: int, m: int)
    requires m > 0
    ensures 0 <= a < m ==> a % m == a
    ensures a == m ==> a % m == 0
  {
    if 0 <= a < m {
      ModUnique(a, m, 0, a);
    } else if a == m {
      ModUnique(a, m, 1, 0);
    }
  }

  /** One tick moves the closed form from `t` to `t + 1`. */
  lemma TickClosedForm(max: nat, t: nat)
    requires max >= 1
    ensures Tick(t % max + 1, max) == (t + 1) % max + 1
  {
    var q := t / max;
    var i := t % max + 1;
    assert t == max * q + t % max;
    if i == max {
      ModUnique(t + 1, max, q + 1, 0);
    } else {
      ModUnique(t + 1, max, q, t % max + 1);
    }
  }

  /** After k ticks the index is `(k % max) + 1`. */
  lemma {:induction false} IndexAfterClosedForm(max: nat, ticks: nat)
    requires max >= 1
    ensures IndexAfter(max, ticks) == ticks % max + 1
    decreases ticks
  {
    if ticks == 0 {
      assert 0 % max == 0;
    } else {
      IndexAfterClosedForm(max, ticks - 1);
      TickClosedForm(max, ticks - 1);
    }
  }

  /** The index always names an existing image, and with a single image it
      never moves. */
  lemma IndexAfterBounds(max: nat, ticks: nat)
    requires max >= 1
    ensures 1 <= IndexAfter(max, ticks) <= max
    ensures max == 1 ==> IndexAfter(max, ticks) == 1
  {
    IndexAfterClosedForm(max, ticks);
  }

  /** Adding the modulus leaves the remainder unchanged. */
  lemma ModShift(t: nat, m: int)
    requires m > 0
    ensures (t + m) % m == t % m
  {
    var q := t / m;
    var r := t % m;
    assert t == m * q + r;
    assert t + m == m * (q + 1) + r;
    ModUnique(t + m, m, q + 1, r);
  }

  /** The slideshow is periodic with period equal to its image count. */
  lemma IndexAfterPeriodic(max: nat, ticks: nat)
    requires max >= 1
    ensures IndexAfter(max, ticks + max) == IndexAfter(max, ticks)
  {
    ModShift(ticks, max);
    IndexAfterClosedForm(max, ticks);
    IndexAfterClosedForm(max, ticks + max);
  }

  /** The four projects of the table cycle through 8, 8, 2 and 6 images; any
      other project stays on image 1 under the corrected lookup, and under the
      script's own lookup too unless its name is an inherited member. */
  lemma ProjectIndices(ticks: nat, other: string)
    requires other !in ProjectImages
    ensures IndexAfter(ImageCount("papais"), ticks) == ticks % 8 + 1
    ensures IndexAfter(ImageCount("puskesmas"), ticks) == ticks % 8 + 1
    ensures IndexAfter(ImageCount("guacamole"), ticks) == ticks % 2 + 1
    ensures IndexAfter(ImageCount("dashboard"), ticks) == ticks % 6 + 1
    ensures IndexAfter(ImageCount(other), ticks) == 1
    ensures MaxImagesAsWritten("papais") == Number(8) && MaxImagesAsWritten("puskesmas") == Number(8)
    ensures MaxImagesAsWritten("guacamole") == Number(2) && MaxImagesAsWritten("dashboard") == Number(6)
    ensures other !in InheritedMethods && other != "__proto__" ==> MaxImagesAsWritten(other) == Number(1)
  {
    assert ImageCount("papais") == 8 && ImageCount("puskesmas") == 8;
    assert ImageCount("guacamole") == 2 && ImageCount("dashboard") == 6;
    IndexAfterClosedForm(8, ticks);
    IndexAfterClosedForm(2, ticks);
    IndexAfterClosedForm(6, ticks);
    IndexAfterBounds(1, ticks);
  }

  /** The interval callback of one project element, run for `ticks` ticks:
      the mutable `currentIndex` starts at 1 and is updated on every tick. */
  method Run(project: string, ticks: nat) returns (index: int)
    ensures index == ticks % ImageCount(project) + 1
    ensures 1 <= index <= ImageCount(project)
  {
    index := RunFrom(ImageCount(project), ticks);
  }

  /** The tick loop of `Run` for an image count `max`. */
  method RunFrom(max: nat, ticks: nat) returns (index: int)
    requires max >= 1
    ensures index == ticks % max + 1
    ensures 1 <= index <= max
  {
    index := 1;
    var t := 0;
    while t < ticks
      invariant 0 <= t <= ticks
      invariant index == t % max + 1
    {
      TickClosedForm(max, t);
      index := Tick(index, max);
      t := t + 1;
    }
  }

  // ---------------------------------------------------------------------
  // The table lookup as the script writes it: `projectImages[name] || 1`
  // reads a property of an object literal, and a property read also finds
  // the members the literal inherits from Object.prototype.

  /** The JavaScript values a property read of the table can produce. */
  datatype JsValue = Number(n: int) | Undefined | FunctionObject | PlainObject

  /** A JavaScript number as the tick arithmetic sees it. */
  datatype JsNumber = Finite(v: int) | NaN

  /** Methods every object literal inherits from Object.prototype: those of
      section 20.1.3 of the ECMAScript standard and the legacy
      `__defineGetter__` family. */
  const InheritedMethods: set<string> := {
    "constructor", "hasOwnProperty", "isPrototypeOf", "propertyIsEnumerable",
    "toLocaleString", "toString", "valueOf",
    "__defineGetter__", "__defineSetter__", "__lookupGetter__", "__lookupSetter__"
  }

  /** `projectImages[name]`: an own entry, an inherited method, the
      prototype itself for `__proto__`, or `undefined`. */
  function PropertyRead(name: string): JsValue {
    if name in ProjectImages then Number(ProjectImages[name])
    else if name in InheritedMethods then FunctionObject
    else if name == "__proto__" then PlainObject
    else Undefined
  }

  /** `v || fallback`: `undefined` and `0` are falsy, objects are truthy. */
  function OrNumber(v: JsValue, fallback: int): JsValue {
    match v
    case Undefined => Number(fallback)
    case Number(n) => if n == 0 then Number(fallback) else v
    case _ => v
  }

  /** `maxImages` as the script computes it. */
  function MaxImagesAsWritten(project: string): JsValue {
    OrNumber(PropertyRead(project), 1)
  }

  /** ToNumber of a table value: an object converts through its string form,
      which is not numeric. */
  function ToNumber(v: JsValue): JsNumber {
    match v
    case Number(n) => Finite(n)
    case _ => NaN
  }

  /** `(currentIndex % maxImages) + 1` on JavaScript numbers. */
  function TickAsWritten(index: JsNumber, max: JsValue): JsNumber {
    match (index, ToNumber(max))
    case (Finite(i), Finite(m)) => if m == 0 then NaN else Finite(JsRem(i, m) + 1)
    case _ => NaN
  }

  /** For every project name that is not an inherited member, the script's
      lookup agrees with `ImageCount`. */
  lemma AsWrittenAgreesOffPrototype(project: string)
    requires project !in InheritedMethods && project != "__proto__"
    ensures MaxImagesAsWritten(project) == Number(ImageCount(project))
  {
  }

  /** A project element with `data-project="constructor"` gets a function as
      its image count, and its index turns into NaN on the first tick and
      stays NaN. */
  lemma ConstructorBreaksSlideshow(later: nat)
    ensures MaxImagesAsWritten("constructor") == FunctionObject
    ensures TickAsWritten(Finite(1), MaxImagesAsWritten("constructor")) == NaN
    ensures TickAsWritten(NaN, MaxImagesAsWritten("constructor")) == NaN
  {
    assert "constructor" !in ProjectImages;
    assert "constructor" in InheritedMethods;
  }
}

=== FILE: uri.dfy ===
/** How a `mailto:` link reaches a mail client and how the client reads it.
    Navigating to the link first runs the URL Standard's basic URL parser,
    which strips C0 controls and spaces from both ends of the link and
    deletes every tab, line feed and carriage return. The mail client then
    reads the link (section 2 of RFC 6068): a `#` starts the fragment, which
    is not part of the header fields (section 3.5 of RFC 3986); the addresses
    run up to the first `?`, the header fields after it are separated by `&`,
    each field is `name=value`, and addresses and values are percent-decoded
    (section 2.1 of RFC 3986). */
module Uri {
  import opened Wrappers

  /** The position of the first `c` in `s`, or `|s|` when `s` has none. */
  function IndexOf(s: string, c: char): (i: nat)
    ensures i <= |s|
    ensures c !in s[..i]
    ensures i < |s| ==> s[i] == c
    ensures i == |s| <==> c !in s
    decreases |s|
  {
    if |s| == 0 then 0
    else if s[0] == c then 0
    else
      var j := IndexOf(s[1..], c);
      assert s[..1 + j] == [s[0]] + s[1..][..j];
      1 + j
  }

  /** A prefix without `c` does not move the first `c`. */
  lemma {:induction false} IndexOfAfterPrefix(a: string, b: string, c: char)
    requires c !in a
    ensures IndexOf(a + b, c) == |a| + IndexOf(b, c)
    decreases |a|
  {
    if a == [] {
      assert a + b == b;
    } else {
      assert (a + b)[0] == a[0];
      assert (a + b)[1..] == a[1..] + b;
      IndexOfAfterPrefix(a[1..], b, c);
    }
  }

  /** The text before the first `c`, past a prefix without `c`. */
  lemma UpToAfterPrefix(a: string, b: string, c: char)
    requires c !in a
    ensures (a + b)[..IndexOf(a + b, c)] == a + b[..IndexOf(b, c)]
  {
    IndexOfAfterPrefix(a, b, c);
  }

  /** The text of `s` before its first `c` (all of `s` when it has none). */
  function UpTo(s: string, c: char): (r: string)
    ensures c !in r
    ensures r <= s
    ensures c !in s ==> r == s
    ensures |r| < |s| ==> s[|r|] == c
  {
    s[..IndexOf(s, c)]
  }

  /** A text cut at its first `c` just after a piece without `c`. */
  lemma UpToMark(a: string, c: char, b: string)
    requires c !in a
    ensures UpTo(a + [c] + b, c) == a
  {
    assert a + [c] + b == a + ([c] + b);
    IndexOfAfterPrefix(a, [c] + b, c);
  }

  /** Past the first `k` characters of a text, a head without `c` does not
      move the first `c`. */
  lemma UpToAfterHead(head: string, body: string, k: nat, c: char)
    requires k <= |head| && c !in head
    ensures UpTo((head + body)[k..], c) == (head + UpTo(body, c))[k..]
  {
    assert (head + body)[k..] == head[k..] + body;
    assert (head + UpTo(body, c))[k..] == head[k..] + UpTo(body, c);
    UpToAfterPrefix(head[k..], body, c);
  }

  /** Splits `s` at its first `c`: the text before it and the text after it
      (the whole of `s` and the empty text when `s` has no `c`). */
  function SplitFirst(s: string, c: char): (r: (string, string))
    ensures c !in r.0
    ensures c in s ==> s == r.0 + [c] + r.1
    ensures c !in s ==> r == (s, "")
  {
    var i := IndexOf(s, c);
    if i == |s| then (s, "")
    else
      assert s == s[..i] + [c] + s[i + 1..];
      (s[..i], s[i + 1..])
  }

  /** Splitting at the first `c` after a first piece without `c`. */
  lemma SplitFirstAfterPiece(a: string, b: string, c: char)
    requires c !in a
    ensures SplitFirst(a + [c] + b, c) == (a, b)
  {
    var s := a + [c] + b;
    IndexOfAfterPrefix(a, [c] + b, c);
    assert s == a + ([c] + b);
    assert s[..|a|] == a;
    assert s[|a| + 1..] == b;
  }

  /** Splits `s` at every `c`. */
  function Split(s: string, c: char): (parts: seq<string>)
    ensures |parts| >= 1
    ensures parts[0] == s[..IndexOf(s, c)]
    ensures forall k :: 0 <= k < |parts| ==> c !in parts[k]
    decreases |s|
  {
    var i := IndexOf(s, c);
    if i == |s| then [s] else [s[..i]] + Split(s[i + 1..], c)
  }

  /** Splitting after a first piece without `c`. */
  lemma SplitAfterPiece(a: string, b: string, c: char)
    requires c !in a
    ensures Split(a + [c] + b, c) == [a] + Split(b, c)
  {
    var s := a + [c] + b;
    IndexOfAfterPrefix(a, [c] + b, c);
    assert s == a + ([c] + b);
    assert s[..|a|] == a;
    assert s[|a| + 1..] == b;
  }

  /** A header field: its name and its (still encoded) value. */
  function Fields(parts: seq<string>): (fs: seq<(string, string)>)
    ensures |fs| == |parts|
    ensures forall k :: 0 <= k < |parts| ==> fs[k] == SplitFirst(parts[k], '=')
    decreases |parts|
  {
    if parts == [] then [] else [SplitFirst(parts[0], '=')] + Fields(parts[1..])
  }

  /** The value of the first header field named `name`. */
  function Lookup(fs: seq<(string, string)>, name: string): (r: Option<string>)
    ensures r.Some? <==> exists k :: 0 <= k < |fs| && fs[k].0 == name
    ensures r.Some? ==> exists k :: 0 <= k < |fs| && fs[k] == (name, r.value) && forall j :: 0 <= j < k ==> fs[j].0 != name
    decreases |fs|
  {
    if fs == [] then None
    else if fs[0].0 == name then Some(fs[0].1)
    else
      var r := Lookup(fs[1..], name);
      assert forall k :: 0 <= k < |fs[1..]| ==> fs[1..][k] == fs[k + 1];
      r
  }

  /** A tab, line feed or carriage return: the URL parser deletes these
      wherever they occur. */
  predicate NoTabNewline(s: string) {
    '\t' !in s && '\n' !in s && '\r' !in s
  }

  /** `s` does not end in a C0 control or a space (code points up to
      U+0020), which the URL parser strips from the end of a link. */
  predicate NoTrailingBlank(s: string) {
    s == [] || s[|s| - 1] > ' '
  }

  /** `s` with every tab, line feed and carriage return deleted. */
  function DropTabNewline(s: string): (r: string)
    ensures NoTabNewline(r)
    ensures NoTabNewline(s) ==> r == s
    decreases |s|
  {
    if s == [] then []
    else
      var rest := DropTabNewline(s[1..]);
      assert s == [s[0]] + s[1..];
      if s[0] == '\t' || s[0] == '\n' || s[0] == '\r' then rest else [s[0]] + rest
  }

  /** Deleting characters works piece by piece. */
  lemma {:induction false} DropTabNewlineAppend(a: string, b: string)
    ensures DropTabNewline(a + b) == DropTabNewline(a) + DropTabNewline(b)
    decreases |a|
  {
    if a == [] {
      assert a + b == b;
    } else {
      assert (a + b)[0] == a[0];
      assert (a + b)[1..] == a[1..] + b;
      DropTabNewlineAppend(a[1..], b);
    }
  }

  /** `s` with its trailing C0 controls and spaces stripped. */
  function TrimEnd(s: string): (r: string)
    ensures |r| <= |s| && r == s[..|r|]
    ensures NoTrailingBlank(r)
    ensures NoTrailingBlank(s) ==> r == s
    ensures |r| < |s| ==> s[|r|] <= ' '
    decreases |s|
  {
    if s != [] && s[|s| - 1] <= ' ' then TrimEnd(s[..|s| - 1]) else s
  }

  /** `s` with its leading C0 controls and spaces stripped. */
  function TrimStart(s: string): (r: string)
    ensures |r| <= |s| && r == s[|s| - |r|..]
    ensures r == [] || r[0] > ' '
    ensures s != [] && s[0] > ' ' ==> r == s
    decreases |s|
  {
    if s != [] && s[0] <= ' ' then TrimStart(s[1..]) else s
  }

  /** What the URL parser keeps of the end of a link: trailing blanks
      stripped, then tabs and line breaks deleted. */
  function AsParsed(s: string): (r: string)
    ensures NoTabNewline(r)
    ensures NoTabNewline(s) && NoTrailingBlank(s) ==> r == s
  {
    DropTabNewline(TrimEnd(s))
  }

  /** Deleting characters adds none. */
  lemma {:induction false} DropTabNewlineKeepsOut(s: string, c: char)
    requires c !in s
    ensures c !in DropTabNewline(s)
    decreases |s|
  {
    if s != [] {
      assert c !in s[1..];
      DropTabNewlineKeepsOut(s[1..], c);
    }
  }

  /** The URL parser adds no character to the end of a link. */
  lemma AsParsedKeepsOut(s: string, c: char)
    requires c !in s
    ensures c !in AsParsed(s)
  {
    var t := TrimEnd(s);
    assert c !in t by {
      assert t == s[..|t|];
    }
    DropTabNewlineKeepsOut(t, c);
  }

  /** A link as the URL parser hands it on: blanks stripped from both ends,
      then tabs and line breaks deleted. */
  function Preprocess(link: string): (r: string)
    ensures NoTabNewline(r)
    ensures link != [] && link[0] > ' ' ==> r == AsParsed(link)
  {
    AsParsed(TrimStart(link))
  }

  /** Stripping the end of a link stops at a head that ends visibly. */
  lemma {:induction false} TrimEndAfterHead(head: string, b: string)
    requires NoTrailingBlank(head) && head != []
    ensures TrimEnd(head + b) == head + TrimEnd(b)
    decreases |b|
  {
    if b == [] {
      assert head + b == head;
    } else if b[|b| - 1] <= ' ' {
      assert (head + b)[..|head + b| - 1] == head + b[..|b| - 1];
      TrimEndAfterHead(head, b[..|b| - 1]);
    } else {
      assert (head + b)[|head + b| - 1] == b[|b| - 1];
    }
  }

  /** The URL parser leaves a clean head alone and reworks only the tail. */
  lemma AsParsedAfterHead(head: string, b: string)
    requires NoTrailingBlank(head) && head != [] && NoTabNewline(head)
    ensures AsParsed(head + b) == head + AsParsed(b)
  {
    TrimEndAfterHead(head, b);
    DropTabNewlineAppend(head, TrimEnd(b));
  }

  /** A parsed `mailto:` link. */
  datatype MailtoUri = MailtoUri(to: string, hfields: seq<(string, string)>)

  /** The part of a link after `mailto:` and before any fragment: the
      addresses alone when there is no `?`, otherwise the addresses and the
      header fields of the query. */
  function ParseHier(rest: string): (u: MailtoUri)
    ensures '?' !in rest ==> u == MailtoUri(rest, [])
  {
    var i := IndexOf(rest, '?');
    if i == |rest| then MailtoUri(rest, [])
    else MailtoUri(rest[..i], Fields(Split(rest[i + 1..], '&')))
  }

  /** Reads a `mailto:` link as the URL parser hands it on: nothing when the
      scheme is missing; otherwise the link up to its first `#`, split into
      addresses and header fields. */
  function ParseMailto(link: string): (r: Option<MailtoUri>)
    ensures var l := Preprocess(link); r.Some? <==> |l| >= 7 && l[..7] == "mailto:"
  {
    var l := Preprocess(link);
    if |l| < 7 || l[..7] != "mailto:" then None
    else Some(ParseHier(UpTo(l[7..], '#')))
  }

  predicate IsHexDigit(c: char) {
    '0' <= c <= '9' || 'A' <= c <= 'F' || 'a' <= c <= 'f'
  }

  function HexValue(c: char): (v: nat)
    requires IsHexDigit(c)
    ensures v < 16
  {
    if '0' <= c <= '9' then (c as int) - ('0' as int)
    else if 'A' <= c <= 'F' then (c as int) - ('A' as int) + 10
    else (c as int) - ('a' as int) + 10
  }

  /** Percent-decoding: each `%XY` with two hex digits becomes the character
      with code `0xXY`; a `%` not followed by two hex digits is kept. */
  function PercentDecode(s: string): (r: string)
    decreases |s|
  {
    if |s| == 0 then ""
    else if s[0] == '%' && |s| >= 3 && IsHexDigit(s[1]) && IsHexDigit(s[2]) then
      [(16 * HexValue(s[1]) + HexValue(s[2])) as char] + PercentDecode(s[3..])
    else [s[0]] + PercentDecode(s[1..])
  }

  /** Text without `%` decodes to itself. */
  lemma {:induction false} DecodePlainPrefix(a: string, b: string)
    requires '%' !in a
    ensures PercentDecode(a + b) == a + PercentDecode(b)
    decreases |a|
  {
    if a == [] {
      assert a + b == b;
    } else {
      assert (a + b)[0] == a[0];
      assert (a + b)[1..] == a[1..] + b;
      DecodePlainPrefix(a[1..], b);
      assert a == [a[0]] + a[1..];
    }
  }

  /** Text without `%` is its own decoding. */
  lemma DecodePlain(a: string)
    requires '%' !in a
    ensures PercentDecode(a) == a
  {
    DecodePlainPrefix(a, "");
    assert a + "" == a;
  }

  /** The escaped line break `%0D%0A` decodes to a carriage return and a
      line feed. */
  lemma DecodeLineBreak(b: string)
    ensures PercentDecode("%0D%0A" + b) == "\r\n" + PercentDecode(b)
  {
    var s := "%0D%0A" + b;
    assert s[0] == '%' && s[1] == '0' && s[2] == 'D';
    assert s[3..] == "%0A" + b;
    var t := s[3..];
    assert t[0] == '%' && t[1] == '0' && t[2] == 'A';
    assert t[3..] == b;
  }
}

=== FILE: wrappers.dfy ===
/** The optional-value datatype used by the parsers of this project. */
module Wrappers {

  /** A value that may be absent: a header field that a link lacks. */
  datatype Option<+T> = None | Some(value: T)
}
